=== FILE: README.md ===
# A verified model of the catalogue, blog and analytics rules of a Django site

The site is a product catalogue with a blog, a downloadable price list and a
small analytics dashboard. This project models the rules in `app/models.py`
and `app/views.py` that decide what gets stored and what gets shown. The rules modelled are:

- how a saved record gets its slug;
- how comma-separated tags and SEO keywords are parsed;
- how a product image is cropped to a centred square;
- how saving a price list keeps at most one list active;
- which posts, products and price lists each page selects, and in which order;
- how the client address is taken from the forwarding header;
- the figures of the analytics dashboard.

Every table is a sequence of immutable records, and the database's row order
is the sequence order. Every query is a pure function over those sequences.

Modules (one file each):

- `Wrappers` (`wrappers.dfy`): `Option` and `Result`.
- `Query` (`query.dfy`) covers `filter`, `count`, `reverse` and `QuerySet.get`. `get` fails with `DoesNotExist` or `MultipleObjectsReturned`.
- `Ordering` (`ordering.dfy`): sorting under a total preorder (`order_by`), sorted top-N slices (`[:n]`), and code-point string order for `ordering = ['name']`.
- `Text` (`text.dfy`): Python's `str.strip`, with the `isspace` character set, and `str.split(',')`. It also holds the "split, strip, drop empty" rule shared by the tags and the SEO keywords.
- `Models` (`models.dfy`) holds the entities and their `save` rules.
- `Views` (`views.dfy`): the page and JSON views. `get_object_or_404` (a 404) and a plain `.get` (an uncaught error) are told apart.
- `Analytics` (`analytics.dfy`): the client address, the time windows, the 7-day series, the rankings, the category statistics and the dashboard record.

Several things that the code gets from outside are parameters:

- `slugify` is an uninterpreted function.
- The clock is a parameter: `today` is a day number and `now` a timestamp.
- A timestamp is a whole number of seconds in the site's time zone, and its day is `t / 86400`.
- Database ties under `order_by` are unspecified. A full ordering claims sortedness and a permutation of the selected rows. A top-N slice claims sortedness, and it keeps each row at most as often as the table stores it. Neither claims a particular tie order.

## Model

| member | source | states |
|---|---|---|
| Models.SaveProductCategory | app/models.py:40-43 | A non-empty slug is kept; an empty one becomes `slugify(name)`; no other field changes |
| Models.SaveBlogCategory | app/models.py:123-126 | A non-empty slug is kept; an empty one becomes `slugify(name)`; no other field changes |
| Models.SaveBlogPost | app/models.py:156-159 | A non-empty slug is kept; an empty one becomes `slugify(title)`; no other field changes |
| Models.SaveSlugIdempotent | app/models.py:40-43 | Saving a saved category, blog category or post again changes nothing |
| Models.CenterCropBox | app/models.py:78-85 | The crop box is a `min(width, height)` square inside the image. One axis is not cut. On the other, the two margins differ by at most one pixel, and the extra pixel goes right or down. This is exactly the floor-halved offset |
| Models.SaveProduct | app/models.py:75-90 | Slug rule as above. A product keeps having (or not having) an image. The image's size becomes `min(width, height)` on both sides, and no other field changes |
| Models.SquareCropIsWhole | app/models.py:78-85 | The crop box of a square image is the whole image |
| Models.SaveProductIdempotent | app/models.py:75-85 | Saving a saved product again gives the same slug, the same other fields and the same image size, because a cropped image is square |
| Models.ParseStatus | app/models.py:146-150 | Form validation of the `choices` accepts a status value exactly when some status stores it, and reads it as that status; a value outside the three choices fails validation |
| Models.ParseStatusValue | app/models.py:146-150 | Each of draft, published and archived round-trips through its stored value |
| Models.ChosenStatus | app/models.py:146-150 | A post built without a status gets the model default `draft`, which is also the form's initial choice. A given value passes form validation exactly when it is one of the three choices |
| Models.TagsList | app/models.py:164-165 | Tags are non-empty, stripped and comma-free. There are at most (commas + 1) of them, and an empty tag string gives none |
| Models.SeoKeywordsList | app/models.py:213-219 | A null keyword field gives no keywords; keywords are non-empty, stripped and comma-free |
| Models.SeoKeywordsAsTags | app/models.py:213-219 | A present keyword string, empty or not, is parsed exactly like a tag string |
| Models.DeactivateOthers | app/models.py:182-184 | Every row other than the saved one is made inactive; nothing else in the table changes |
| Models.SavePriceList | app/models.py:181-185 | Ids stay unique. The saved row is written in place exactly when its id is already stored, and appended otherwise. An active save leaves it the only active row. An inactive save leaves every other row untouched |
| Models.SavePriceListKeepsOneActive | app/models.py:177-185 | Every save preserves "at most one active price list" |
| Text.Strip | app/models.py:165 | The result has no leading or trailing whitespace, is no longer than the input, and is empty exactly when the input is all whitespace |
| Text.StripIsSlice | app/models.py:165 | The stripped text is the input with its leading and trailing whitespace cut off, and it introduces no character |
| Text.StripStripped | app/models.py:165 | Stripping already-stripped text changes nothing |
| Text.Split | app/models.py:165 | There is always a first piece. It is a prefix of the input that contains no comma and ends at a comma or at the end, so it is the input up to the first comma |
| Text.SplitCount | app/models.py:165 | `split(',')` gives one more piece than there are commas |
| Text.SplitPiecesSeparatorFree | app/models.py:165 | No piece contains the separator |
| Text.JoinSplit | app/models.py:165 | Joining the pieces with the separator gives back the input |
| Text.SplitJoin | app/models.py:165 | Splitting a join of separator-free pieces gives back the pieces |
| Text.CleanPiecesItems | app/models.py:165 | Every kept piece is non-empty and stripped |
| Text.CleanPiecesComplete | app/models.py:165 | Every piece that is not all whitespace is kept, stripped |
| Text.CleanPiecesSound | app/models.py:165 | Every kept item is the strip of some piece |
| Text.CleanPiecesAppend | app/models.py:165 | The rule works piece by piece, so the items keep the left-to-right order of the pieces |
| Text.CommaList | app/models.py:165 | Items are non-empty, stripped and comma-free. There are at most (commas + 1) of them, and the empty string gives none |
| Text.CommaListJoin | app/models.py:165 | Parsing the comma-join of clean items gives back exactly those items |
| Query.FilterSubMultiset | app/views.py:58 | A filter keeps each row at most as often as the table stores it |
| Query.Filter | app/views.py:58 | The rows kept are exactly the rows satisfying the condition, each as often as it is stored |
| Query.CountIsFilterLength | app/views.py:169 | `.count()` is the length of the filtered table |
| Query.Get | app/views.py:38 | `get` returns a matching row. It raises `DoesNotExist` exactly when no row matches, and `MultipleObjectsReturned` exactly when two rows match |
| Query.GetOnUniqueKey | app/views.py:38 | On a unique column, `get` succeeds exactly when some row matches |
| Ordering.Sort | app/views.py:58 | `order_by` returns a permutation of the rows, sorted by the comparator |
| Ordering.SortedTake | app/views.py:17 | `[:n]` after `order_by` keeps `min(n, rows)` rows of the table, sorted. No row left out comes before a row kept |
| Ordering.SortedFilter | app/views.py:58 | A filter followed by `order_by` gives exactly the matching rows, with their multiplicities, sorted |
| Ordering.TopFiltered | app/views.py:71-74 | `filter(...).order_by(...)[:n]` gives `min(n, matches)` matching rows, each at most as often as stored, sorted. No matching row left out comes before one kept |
| Ordering.LexLeIsTotalPreorder | app/models.py:102 | Name order is total and transitive, so `ordering = ['name']` sorts |
| Views.GetOr404 | app/views.py:68 | A missing row is a 404 exactly when no row matches; two matching rows raise instead of giving a 404 |
| Views.GetOrRaise | app/views.py:38 | A plain `.get` in a view never gives a 404. It raises `DoesNotExist` exactly when no row matches, and `MultipleObjectsReturned` exactly when two rows match |
| Views.NewProducts | app/views.py:17 | `home` shows `min(12, products)` stored products, each at most as often as stored, newest first. No product left out is newer than one shown |
| Views.CategoryProducts | app/views.py:36-39 | The view raises `DoesNotExist` exactly when no category has the slug, and `MultipleObjectsReturned` exactly when two do; otherwise (exactly one) the page shows exactly the category's products, each once per stored row, sorted by name |
| Views.ProductInCategory | app/views.py:51-53 | The product shown has the product slug, and its category has the category slug. The view raises `DoesNotExist` exactly when no product matches both, and `MultipleObjectsReturned` exactly when two do, so it succeeds exactly when one does |
| Views.PublishedPosts | app/views.py:56-58 | The blog lists exactly the published posts, each once per stored row, newest first |
| Views.RelatedPosts | app/views.py:71-74 | There are `min(3, related)` related posts: same category, published, not the post itself, each at most as often as stored. They are newest first, and no related post left out is newer than one shown |
| Views.PublishedPostWithSlug | app/views.py:68 | The lookup is a 404 exactly when no published post has the slug, raises `MultipleObjectsReturned` exactly when two do, never raises `DoesNotExist`, and otherwise gives a published post with the slug |
| Views.IndividualBlog | app/views.py:66-74 | A post page is a published post with the slug, together with its related posts. The page is a 404 exactly when no published post has the slug, raises `MultipleObjectsReturned` exactly when two do, and never raises `DoesNotExist` |
| Views.IndividualBlogUniqueSlugs | app/views.py:68 | With unique slugs, a post page is shown exactly when a published post has the slug; otherwise it is a 404 |
| Views.BlogCategoryListing | app/views.py:82-88 | The page is a 404 exactly when no category has the slug, raises `MultipleObjectsReturned` exactly when two do, and never raises `DoesNotExist`. Otherwise the page shows exactly the category's published posts, each as often as stored, newest first |
| Views.ApiBlogPosts | app/views.py:131-151 | There is one JSON entry per published post and none for any other post. Entries are newest first and carry the parsed tags |
| Views.ActivePriceList | app/views.py:98-101 | A price list is shown exactly when one is active. It is an active row, with no active row uploaded later |
| Views.ActivePriceListIsTheActiveRow | app/views.py:101 | Under the one-active-row invariant, the page shows that row |
| Analytics.ClientIp | app/views.py:266-271 | A non-empty forwarding header gives its text up to the first comma, untrimmed. Otherwise the result is the remote address |
| Analytics.ClientIpFirstHop | app/views.py:267-269 | For a header `client,rest`, the client is returned exactly as written |
| Analytics.RecentVisits | app/views.py:173-174 | A window's count is the number of visits recorded since midnight `days` days before today, so never more than all visits |
| Analytics.RecentVisitsMonotone | app/views.py:162-174 | The 7-day count is at most the 30-day count, which is at most the total |
| Analytics.RecentContacts | app/views.py:187-189 | The recent-contact count is the number of submissions made since midnight seven days before today, so never more than all submissions |
| Analytics.DailyVisits | app/views.py:191-201 | The series has exactly 7 entries, for consecutive days ending today, oldest first. Each entry counts the visits of its day |
| Analytics.SeriesTotalCountsSpan | app/views.py:192-195 | Per-day counts over consecutive days add up to the visits of the whole span |
| Analytics.DailySeriesWithinWeek | app/views.py:162-201 | The seven bars add up to the visits of those seven days, and never exceed the 7-day figure |
| Analytics.TopByViews | app/views.py:177-179 | `min(n, items)` items, each with its own view count and each at most as often as stored, most viewed first. No item left out has more views than an item shown |
| Analytics.SubRowsSubItems | app/views.py:177-179 | Fewer ranked rows, each carrying its own count, means fewer items: a sub-multiset of rows gives a sub-multiset of items |
| Analytics.TopRowsAreDistinct | app/views.py:177-179 | The top-n slice shows each item at most as often as it is stored |
| Analytics.PopularProducts | app/views.py:177-179 | `min(5, products)` products, each with its view count and each at most as often as stored, most viewed first. No product left out is more viewed than one shown |
| Analytics.PublishedRows | app/views.py:182 | Exactly the published posts, each at most as often as stored, as many as are published |
| Analytics.PopularBlogPosts | app/views.py:182-184 | `min(5, published)` published posts, each with its view count and each at most as often as stored, most viewed first. No published post left out is more viewed than one shown |
| Analytics.JoinedProductCountInflates | app/views.py:204-207 | The joined product count never undercounts. It is right exactly when no product of the category has more than one view |
| Analytics.JoinedProductCountCounterexample | app/views.py:204-207 | One product viewed twice is reported as two products |
| Analytics.CategoryStats | app/views.py:203-207 | `min(5, categories)` categories, each at most as often as stored, by descending total product views. Each carries its true product count and its total views. No category left out has more views than one shown |
| Analytics.RankCategories | app/views.py:203-207 | The five categories with the most product views, each with that number and at most as often as stored; no category left out outranks one kept |
| Analytics.GetAnalyticsData | app/views.py:160-207 | The dashboard figures: totals, windows, the 7-day series (which fits within the 7-day figure), the top-5 lists and the recent contacts. Its category statistics carry the corrected product count of the row under "## Findings", not the count the query as written reports |

## Left out

- Image decoding, JPEG re-encoding and file storage in `Product.save` are left out. Only the crop box is modelled, and an image is its pixel size.
- Models.SaveProduct: does not model the image file name or its encoded bytes. Every save re-encodes the image and stores a new file whose name the storage chooses, so SaveProductIdempotent speaks of the image size only.
- The ORM, persistence and transactions are left out; a table is a sequence of records.
- The caller supplies the primary key of a new row; allocation is not modelled.
- The read-then-update race in `PriceList.save` under concurrent requests is not modelled, because the model is sequential.
- `auto_now`/`auto_now_add` timestamps are left out for categories, products and posts. The price-list save takes `now` for its upload and update dates.
- Template rendering, `JsonResponse` serialisation, sessions, authentication decorators and the dashboard's JSON view are left out.
- `strftime` date formatting in the series and `isoformat` in the blog API are left out.
- `timezone.now()` and time-zone handling: `today` and `now` are parameters, and days are `t / 86400` in site-local seconds.
- `slugify` internals are left out; `slugify` is a parameter.
- Database collation is left out. Name order is code-point order, and where the database breaks ties is left open.
- The writes of visit and view records in the tracking helpers are left out. Only the client address they record is modelled.
- `home`, `about`, `contact` and `products` also list every category and feature block unfiltered. These plain listings are not modelled.
- `api_products`, `api_categories`, `api_blog_categories`, the contact form and the admin configuration are outside the modelled core.
- Models.ParseStatus: `choices` are checked only by form validation. `BlogPost.save()` stores any status string of up to 20 characters, and reading it back never rejects it. `PostStatus` cannot represent such a row. Such a post is not `published`, so it would behave as unpublished in every modelled view.
- Views.ApiBlogPosts: JSON entries leave out the image URL and the category name, which are file storage and serialisation concerns.
- Analytics.PopularProducts: ranks each product by the views whose product id is its id; the view table's foreign key is assumed to be consistent.

## Findings

| source | as written | input that shows it | evidently intended | confidence | as-written member | corrected member |
|---|---|---|---|---|---|---|
| app/views.py:204-207 | `annotate(product_count=Count('products'), total_views=Count('products__views'))` counts both over the category-product-view join, so `product_count` counts a product once per view (once if unviewed) | one category holding one product that has two views: `product_count` is 2 | `product_count` is the number of products in the category (for example `Count('products', distinct=True)`) | not executed | Analytics.JoinedProductCountCounterexample | Analytics.CategoryStats |

=== FILE: analytics.dfy ===
/**
 This module models the analytics side of app/views.py: the client address
 recorded with each visit or view, and the dashboard figures of
 `get_analytics_data` (counts, time windows, the 7-day series and the top-5
 rankings). Timestamps are seconds in the site's time zone; "today" is a day
 number supplied by the caller in place of the clock.
 */
module Analytics {
  import opened Wrappers
  import opened Query
  import opened Ordering
  import opened Text
  import opened Models
  import opened Views

  // ---------------------------------------------------------------------------
  // Recorded events

  datatype PageVisit = PageVisit(
    pageUrl: string,
    pageTitle: string,
    ipAddress: string,
    userAgent: string,
    referrer: Option<string>,
    visitTime: int,
    sessionId: string)

  datatype ProductView = ProductView(product: nat, ipAddress: string, viewTime: int, sessionId: string)

  datatype BlogPostView = BlogPostView(post: nat, ipAddress: string, viewTime: int, sessionId: string)

  datatype ContactSubmission = ContactSubmission(
    name: string,
    email: string,
    phone: string,
    subject: string,
    message: string,
    ipAddress: string,
    submittedTime: int,
    isResponded: bool)

  /**
   The client address of `track_page_visit`, `track_product_view` and
   `track_blog_view`: the text before the first comma of a non-empty
   X-Forwarded-For header, untrimmed; otherwise REMOTE_ADDR.
   */
  function ClientIp(forwardedFor: Option<string>, remoteAddr: Option<string>): (ip: Option<string>)
    ensures forwardedFor.Some? && forwardedFor.value != "" ==>
              && ip.Some?
              && ip.value <= forwardedFor.value
              && ',' !in ip.value
              && (|ip.value| == |forwardedFor.value| || forwardedFor.value[|ip.value|] == ',')
    ensures (forwardedFor.None? || forwardedFor.value == "") ==> ip == remoteAddr
  {
    match forwardedFor
    case Some(header) =>
      if header != "" then
        SplitPiecesSeparatorFree(header, ',');
        assert Split(header, ',')[0] in Split(header, ',');
        Some(Split(header, ',')[0])
      else remoteAddr
    case None => remoteAddr
  }

  /** A proxy chain `client, proxy1, ...` yields the client, exactly as written. */
  lemma ClientIpFirstHop(client: string, rest: string, remoteAddr: Option<string>)
    requires ',' !in client
    ensures ClientIp(Some(client + "," + rest), remoteAddr) == Some(client)
  {
    var header := client + "," + rest;
    var ip := ClientIp(Some(header), remoteAddr).value;
    assert header[|client|] == ',';
    assert ip == header[..|ip|];
    assert ip == client;
  }

  // ---------------------------------------------------------------------------
  // Days and windows

  const SecondsPerDay: int := 86400

  /** The calendar day of a timestamp (`visit_date__date`). */
  function Day(t: int): int {
    t / SecondsPerDay
  }

  /** The first second of a day: a date compared with a timestamp means its midnight. */
  function Midnight(day: int): int {
    day * SecondsPerDay
  }

  lemma DayAfterMidnight(t: int, day: int)
    ensures Day(t) >= day <==> t >= Midnight(day)
  {
  }

  /** Visits at or after midnight `days` days before today (`visit_date__gte=today - timedelta(days)`). */
  function Since(today: int, days: nat): PageVisit -> bool {
    (v: PageVisit) => v.visitTime >= Midnight(today - days)
  }

  /** Visits on one day. */
  function OnDay(day: int): PageVisit -> bool {
    (v: PageVisit) => Day(v.visitTime) == day
  }

  /** Visits on the days `lo` to `hi`, both included. */
  function Between(lo: int, hi: int): PageVisit -> bool {
    (v: PageVisit) => lo <= Day(v.visitTime) <= hi
  }

  /** `recent_visits_N_days`: the visits since midnight `days` days ago. */
  function RecentVisits(visits: seq<PageVisit>, today: int, days: nat): (c: nat)
    ensures c == |Filter(visits, Since(today, days))|
    ensures c <= |visits|
  {
    CountIsFilterLength(visits, Since(today, days));
    Count(visits, Since(today, days))
  }

  /** A wider window counts at least as many visits, and no window counts more than all of them. */
  lemma RecentVisitsMonotone(visits: seq<PageVisit>, today: int, shorter: nat, longer: nat)
    requires shorter <= longer
    ensures RecentVisits(visits, today, shorter) <= RecentVisits(visits, today, longer) <= |visits|
  {
    assert Midnight(today - longer) <= Midnight(today - shorter);
    CountMonotone(visits, Since(today, shorter), Since(today, longer));
  }

  /** Submissions at or after midnight seven days before today (`submitted_date__gte=last_7_days`). */
  function SubmittedThisWeek(today: int): ContactSubmission -> bool {
    (c: ContactSubmission) => c.submittedTime >= Midnight(today - 7)
  }

  /** `recent_contacts`: the submissions since midnight seven days ago. */
  function RecentContacts(contacts: seq<ContactSubmission>, today: int): (c: nat)
    ensures c == |Filter(contacts, SubmittedThisWeek(today))|
    ensures c <= |contacts|
  {
    CountIsFilterLength(contacts, SubmittedThisWeek(today));
    Count(contacts, SubmittedThisWeek(today))
  }

  // ---------------------------------------------------------------------------
  // Daily series

  datatype DailyCount = DailyCount(day: int, visits: nat)

  function VisitsOn(visits: seq<PageVisit>, day: int): nat {
    Count(visits, OnDay(day))
  }

  /**
   The `daily_visits` series: the seven days ending today, oldest first, each
   with the number of visits on that day. Built as the source builds it,
   newest first, then reversed.
   */
  method DailyVisits(visits: seq<PageVisit>, today: int) returns (series: seq<DailyCount>)
    ensures |series| == 7
    ensures series[6].day == today
    ensures forall k :: 0 <= k < 7 ==> series[k] == DailyCount(today - 6 + k, VisitsOn(visits, today - 6 + k))
  {
    var newestFirst: seq<DailyCount> := [];
    var i := 0;
    while i < 7
      invariant 0 <= i <= 7
      invariant |newestFirst| == i
      invariant forall k :: 0 <= k < i ==> newestFirst[k] == DailyCount(today - k, VisitsOn(visits, today - k))
    {
      var day := today - i;
      newestFirst := newestFirst + [DailyCount(day, VisitsOn(visits, day))];
      i := i + 1;
    }
    series := Reverse(newestFirst);
  }

  /** The sum of the counts of a series. */
  function SeriesTotal(series: seq<DailyCount>): nat {
    if series == [] then 0 else SeriesTotal(series[..|series| - 1]) + series[|series| - 1].visits
  }

  /** A series of consecutive days that counts each day's visits adds up to the visits of the whole span. */
  lemma {:induction false} SeriesTotalCountsSpan(visits: seq<PageVisit>, series: seq<DailyCount>, first: int)
    requires forall k :: 0 <= k < |series| ==> series[k] == DailyCount(first + k, VisitsOn(visits, first + k))
    ensures SeriesTotal(series) == Count(visits, Between(first, first + |series| - 1))
  {
    var n := |series|;
    if n == 0 {
      CountNone(visits, Between(first, first - 1));
    } else {
      var front := series[..n - 1];
      assert forall k :: 0 <= k < |front| ==> front[k] == series[k];
      SeriesTotalCountsSpan(visits, front, first);
      CountSplit(visits, Between(first, first + n - 1), Between(first, first + n - 2), OnDay(first + n - 1));
    }
  }

  /**
   The seven bars of the series add up to the visits of those seven days,
   which never exceed "recent visits, 7 days": that window starts one day
   earlier, at midnight seven days ago.
   */
  lemma DailySeriesWithinWeek(visits: seq<PageVisit>, today: int, series: seq<DailyCount>)
    requires |series| == 7
    requires forall k :: 0 <= k < 7 ==> series[k] == DailyCount(today - 6 + k, VisitsOn(visits, today - 6 + k))
    ensures SeriesTotal(series) == Count(visits, Between(today - 6, today))
    ensures SeriesTotal(series) <= RecentVisits(visits, today, 7)
  {
    SeriesTotalCountsSpan(visits, series, today - 6);
    forall v | Between(today - 6, today)(v)
      ensures Since(today, 7)(v)
    {
      DayAfterMidnight(v.visitTime, today - 6);
    }
    CountMonotone(visits, Between(today - 6, today), Since(today, 7));
  }

  // ---------------------------------------------------------------------------
  // Rankings

  /** A row annotated with its view count (`annotate(view_count=Count('views'))`). */
  datatype Ranked<T> = Ranked(item: T, views: nat)

  /** `order_by('-view_count')`. */
  predicate MoreViewsFirst<T>(a: Ranked<T>, b: Ranked<T>) {
    a.views >= b.views
  }

  lemma MoreViewsFirstIsTotal<T(!new)>()
    ensures TotalPreorder((a: Ranked<T>, b: Ranked<T>) => MoreViewsFirst(a, b))
  {
  }

  /** Every item annotated with its count, in table order. */
  function Annotate<T>(items: seq<T>, count: T -> nat): (r: seq<Ranked<T>>)
    ensures |r| == |items|
    ensures forall i :: 0 <= i < |r| ==> r[i] == Ranked(items[i], count(items[i]))
  {
    if items == [] then [] else [Ranked(items[0], count(items[0]))] + Annotate(items[1..], count)
  }

  /** The annotated table holds exactly each item with its own count. */
  lemma AnnotateRows<T>(items: seq<T>, count: T -> nat)
    ensures forall x :: x in Annotate(items, count) ==> x.item in items && x.views == count(x.item)
    ensures forall y :: y in items ==> Ranked(y, count(y)) in Annotate(items, count)
  {
    var r := Annotate(items, count);
    forall y | y in items
      ensures Ranked(y, count(y)) in r
    {
      var i :| 0 <= i < |items| && items[i] == y;
      assert r[i] == Ranked(y, count(y));
    }
  }

  /** The items of ranked rows, in order. */
  function Items<T>(rows: seq<Ranked<T>>): (r: seq<T>)
    ensures |r| == |rows|
    ensures forall i :: 0 <= i < |r| ==> r[i] == rows[i].item
  {
    if rows == [] then [] else [rows[0].item] + Items(rows[1..])
  }

  /** When every row carries its own item's count, an item occurs exactly as often as its row. */
  lemma {:induction false} ItemsMultiplicity<T>(rows: seq<Ranked<T>>, count: T -> nat, y: T)
    requires forall i :: 0 <= i < |rows| ==> rows[i].views == count(rows[i].item)
    ensures multiset(Items(rows))[y] == multiset(rows)[Ranked(y, count(y))]
  {
    if rows != [] {
      ItemsMultiplicity(rows[1..], count, y);
      assert rows == [rows[0]] + rows[1..];
      assert Items(rows) == [rows[0].item] + Items(rows[1..]);
    }
  }

  /** `order_by('-view_count')` as a comparator. */
  function ViewsOrder<T>(): (Ranked<T>, Ranked<T>) -> bool {
    (a: Ranked<T>, b: Ranked<T>) => MoreViewsFirst(a, b)
  }

  /** The kept rows are annotated items. */
  lemma TopRowsAreAnnotated<T(!new)>(items: seq<T>, count: T -> nat, n: nat)
    requires TotalPreorder(ViewsOrder<T>())
    ensures forall x :: x in SortedTake(Annotate(items, count), ViewsOrder<T>(), n) ==>
              x.item in items && x.views == count(x.item)
  {
    var annotated := Annotate(items, count);
    AnnotateRows(items, count);
    var r := SortedTake(annotated, ViewsOrder<T>(), n);
    assert forall x :: x in r ==> x in multiset(annotated);
  }

  /** The kept rows name each item at most as often as the table holds it. */
  lemma TopRowsAreDistinct<T(!new)>(items: seq<T>, count: T -> nat, n: nat)
    requires TotalPreorder(ViewsOrder<T>())
    ensures multiset(Items(SortedTake(Annotate(items, count), ViewsOrder<T>(), n))) <= multiset(items)
  {
    var annotated := Annotate(items, count);
    var r := SortedTake(annotated, ViewsOrder<T>(), n);
    TopRowsAreAnnotated(items, count, n);
    assert forall i :: 0 <= i < |r| ==> r[i] in r;
    SubRowsSubItems(r, annotated, count);
    AnnotateItems(items, count);
  }

  /** Annotating and then dropping the counts gives the items back. */
  lemma AnnotateItems<T>(items: seq<T>, count: T -> nat)
    ensures Items(Annotate(items, count)) == items
  {
  }

  /** Rows carrying their own items' counts: fewer rows means fewer items. */
  lemma SubRowsSubItems<T>(r: seq<Ranked<T>>, a: seq<Ranked<T>>, count: T -> nat)
    requires multiset(r) <= multiset(a)
    requires forall i :: 0 <= i < |r| ==> r[i].views == count(r[i].item)
    requires forall i :: 0 <= i < |a| ==> a[i].views == count(a[i].item)
    ensures multiset(Items(r)) <= multiset(Items(a))
  {
    forall y
      ensures multiset(Items(r))[y] <= multiset(Items(a))[y]
    {
      ItemsMultiplicity(r, count, y);
      ItemsMultiplicity(a, count, y);
    }
  }

  /** No item left out outranks a kept row. */
  lemma TopRowsOutrankTheRest<T(!new)>(items: seq<T>, count: T -> nat, n: nat)
    requires TotalPreorder(ViewsOrder<T>())
    ensures var r := SortedTake(Annotate(items, count), ViewsOrder<T>(), n);
            forall y, i :: y in items && Ranked(y, count(y)) !in r && 0 <= i < |r| ==> r[i].views >= count(y)
  {
    AnnotateRows(items, count);
  }

  /**
   `annotate(...).order_by('-view_count')[:n]`: the `n` items with the most
   views (all of them when there are fewer), each shown at most as often as it
   is stored, most viewed first; no item left out has more views than an item
   shown.
   */
  function TopByViews<T(!new)>(items: seq<T>, count: T -> nat, n: nat): (r: seq<Ranked<T>>)
    ensures |r| == if |items| <= n then |items| else n
    ensures forall x :: x in r ==> x.item in items && x.views == count(x.item)
    ensures multiset(Items(r)) <= multiset(items)
    ensures forall i, j :: 0 <= i < j < |r| ==> MoreViewsFirst(r[i], r[j])
    ensures forall y, i :: y in items && Ranked(y, count(y)) !in r && 0 <= i < |r| ==> r[i].views >= count(y)
  {
    MoreViewsFirstIsTotal<T>();
    assert TotalPreorder(ViewsOrder<T>());
    TopRowsAreAnnotated(items, count, n);
    TopRowsAreDistinct(items, count, n);
    TopRowsOutrankTheRest(items, count, n);
    SortedTake(Annotate(items, count), ViewsOrder<T>(), n)
  }

  function ProductViewCount(views: seq<ProductView>, id: nat): nat {
    Count(views, (v: ProductView) => v.product == id)
  }

  function BlogPostViewCount(views: seq<BlogPostView>, id: nat): nat {
    Count(views, (v: BlogPostView) => v.post == id)
  }

  /** `popular_products`: the five most viewed products. */
  function PopularProducts(products: seq<Product>, views: seq<ProductView>): (r: seq<Ranked<Product>>)
    ensures |r| == if |products| <= 5 then |products| else 5
    ensures forall x :: x in r ==> x.item in products && x.views == ProductViewCount(views, x.item.id)
    ensures multiset(Items(r)) <= multiset(products)
    ensures forall i, j :: 0 <= i < j < |r| ==> r[i].views >= r[j].views
    ensures forall p, i :: p in products && Ranked(p, ProductViewCount(views, p.id)) !in r && 0 <= i < |r| ==>
              r[i].views >= ProductViewCount(views, p.id)
  {
    var count := (p: Product) => ProductViewCount(views, p.id);
    assert forall p :: count(p) == ProductViewCount(views, p.id);
    TopByViews(products, count, 5)
  }

  /** `BlogPost.objects.filter(status='published')`: the published posts, each as often as it is stored. */
  function PublishedRows(posts: seq<BlogPost>): (r: seq<BlogPost>)
    ensures forall p :: p in r <==> p in posts && p.status == Published
    ensures multiset(r) <= multiset(posts)
    ensures |r| == Count(posts, IsPublished)
  {
    CountIsFilterLength(posts, IsPublished);
    FilterSubMultiset(posts, IsPublished);
    Filter(posts, IsPublished)
  }

  /** `popular_blog_posts`: the five most viewed published posts. */
  function PopularBlogPosts(posts: seq<BlogPost>, views: seq<BlogPostView>): (r: seq<Ranked<BlogPost>>)
    ensures TopPublished(r, posts, views)
  {
    PublishedTopFive(posts, views);
    TopByViews(PublishedRows(posts), BlogPostCounts(views), 5)
  }

  lemma PublishedTopFive(posts: seq<BlogPost>, views: seq<BlogPostView>)
    ensures TopPublished(TopByViews(PublishedRows(posts), BlogPostCounts(views), 5), posts, views)
  {
    PublishedTopRanking(posts, views);
    PublishedTopCoverage(posts, views);
  }

  /**
   `r` lists the five most viewed published posts (all of them when there are
   fewer), each stored post at most once per stored copy, most viewed first,
   with no published post left out outranking a listed one.
   */
  predicate TopPublished(r: seq<Ranked<BlogPost>>, posts: seq<BlogPost>, views: seq<BlogPostView>) {
    && |r| == (if Count(posts, IsPublished) <= 5 then Count(posts, IsPublished) else 5)
    && (forall x :: x in r ==> x.item in posts && x.item.status == Published && x.views == BlogPostViewCount(views, x.item.id))
    && multiset(Items(r)) <= multiset(posts)
    && (forall i, j :: 0 <= i < j < |r| ==> r[i].views >= r[j].views)
    && (forall p, i :: p in posts && p.status == Published && Ranked(p, BlogPostViewCount(views, p.id)) !in r && 0 <= i < |r| ==>
          r[i].views >= BlogPostViewCount(views, p.id))
  }

  /** The view count of each blog post, as a ranking key. */
  function BlogPostCounts(views: seq<BlogPostView>): BlogPost -> nat {
    (p: BlogPost) => BlogPostViewCount(views, p.id)
  }

  /** The shape of the five most viewed published posts. */
  lemma PublishedTopRanking(posts: seq<BlogPost>, views: seq<BlogPostView>)
    ensures var r := TopByViews(PublishedRows(posts), BlogPostCounts(views), 5);
            && |r| == (if Count(posts, IsPublished) <= 5 then Count(posts, IsPublished) else 5)
            && (forall x :: x in r ==> x.item in posts && x.item.status == Published && x.views == BlogPostViewCount(views, x.item.id))
            && (forall i, j :: 0 <= i < j < |r| ==> r[i].views >= r[j].views)
  {
  }

  /** The five most viewed published posts are distinct stored posts, and none left out outranks them. */
  lemma PublishedTopCoverage(posts: seq<BlogPost>, views: seq<BlogPostView>)
    ensures var r := TopByViews(PublishedRows(posts), BlogPostCounts(views), 5);
            && multiset(Items(r)) <= multiset(posts)
            && (forall p, i :: p in posts && p.status == Published && Ranked(p, BlogPostViewCount(views, p.id)) !in r && 0 <= i < |r| ==>
                  r[i].views >= BlogPostViewCount(views, p.id))
  {
    var published := PublishedRows(posts);
    var r := TopByViews(published, BlogPostCounts(views), 5);
    assert multiset(Items(r)) <= multiset(published);
  }

  // ---------------------------------------------------------------------------
  // Category statistics

  /** The number of products in a category (`Count('products')` as intended). */
  function ProductsIn(products: seq<Product>, category: nat): nat {
    Count(products, (p: Product) => p.category == category)
  }

  /** The views of all products of a category (`Count('products__views')`). */
  function CategoryViews(products: seq<Product>, views: seq<ProductView>, category: nat): nat {
    if products == [] then 0
    else (if products[0].category == category then ProductViewCount(views, products[0].id) else 0)
         + CategoryViews(products[1..], views, category)
  }

  /**
   `Count('products')` as the query computes it when annotated together with
   `Count('products__views')`: both counts run over the joined
   category-product-view rows, so a product is counted once per view, and
   once when it has none.
   */
  function JoinedProductCount(products: seq<Product>, views: seq<ProductView>, category: nat): nat {
    if products == [] then 0
    else (if products[0].category == category then Max1(ProductViewCount(views, products[0].id)) else 0)
         + JoinedProductCount(products[1..], views, category)
  }

  function Max1(n: nat): nat {
    if n == 0 then 1 else n
  }

  /**
   The joined count never undercounts, and it is right exactly when no
   product of the category has been viewed more than once.
   */
  lemma {:induction false} JoinedProductCountInflates(products: seq<Product>, views: seq<ProductView>, category: nat)
    ensures JoinedProductCount(products, views, category) >= ProductsIn(products, category)
    ensures JoinedProductCount(products, views, category) == ProductsIn(products, category) <==>
              forall p :: p in products && p.category == category ==> ProductViewCount(views, p.id) <= 1
  {
    if products != [] {
      JoinedProductCountInflates(products[1..], views, category);
      assert forall p :: p in products[1..] ==> p in products;
      assert forall p :: p in products ==> p == products[0] || p in products[1..];
    }
  }

  /** One category, one product, two views: the dashboard reports two products. */
  lemma JoinedProductCountCounterexample()
    ensures var products := [Product(1, "Syrup", "syrup", "", "", 7, None, None, 0)];
            var views := [ProductView(1, "10.0.0.1", 0, ""), ProductView(1, "10.0.0.2", 0, "")];
            JoinedProductCount(products, views, 7) == 2 && ProductsIn(products, 7) == 1
  {
    var products := [Product(1, "Syrup", "syrup", "", "", 7, None, None, 0)];
    var views := [ProductView(1, "10.0.0.1", 0, ""), ProductView(1, "10.0.0.2", 0, "")];
    assert ProductViewCount(views, 1) == 2;
    assert ProductsIn(products, 7) == 1;
  }

  datatype CategoryStat = CategoryStat(category: ProductCategory, productCount: nat, totalViews: nat)

  /**
   `category_stats`: the five categories whose products have the most views
   (all of them when there are fewer), each shown at most as often as it is
   stored, with its number of products (the corrected count) and total views;
   no category left out has more views than one shown.
   */
  function CategoryStats(categories: seq<ProductCategory>, products: seq<Product>, views: seq<ProductView>)
    : (r: seq<CategoryStat>)
    ensures TopCategoryStats(r, categories, products, views)
  {
    TopCategoryStatsHold(categories, products, views);
    StatRows(RankCategories(categories, products, views), products)
  }

  /**
   `r` holds the five categories with the most product views (all of them when
   there are fewer), each at most as often as it is stored, most viewed first,
   each with its number of products and total views; no category left out has
   more views than one shown.
   */
  predicate TopCategoryStats(r: seq<CategoryStat>, categories: seq<ProductCategory>, products: seq<Product>,
                             views: seq<ProductView>) {
    DescribedCategories(r, categories, products, views) && OutrankTheRest(r, categories, products, views)
  }

  /**
   `r` has one row for each of up to five stored categories, each at most as
   often as it is stored, most viewed first, with the category's product count
   and total views.
   */
  predicate DescribedCategories(r: seq<CategoryStat>, categories: seq<ProductCategory>, products: seq<Product>,
                                views: seq<ProductView>) {
    && |r| == (if |categories| <= 5 then |categories| else 5)
    && (forall i :: 0 <= i < |r| ==>
          && r[i].category in categories
          && r[i].productCount == ProductsIn(products, r[i].category.id)
          && r[i].totalViews == CategoryViews(products, views, r[i].category.id))
    && (forall i, j :: 0 <= i < j < |r| ==> r[i].totalViews >= r[j].totalViews)
    && multiset(StatCategories(r)) <= multiset(categories)
  }

  /** No stored category missing from `r` has more views than a row of `r`. */
  predicate OutrankTheRest(r: seq<CategoryStat>, categories: seq<ProductCategory>, products: seq<Product>,
                           views: seq<ProductView>) {
    forall c, i :: c in categories && c !in StatCategories(r) && 0 <= i < |r| ==>
      r[i].totalViews >= CategoryViews(products, views, c.id)
  }

  /** The statistics rows of the ranked categories are the top five. */
  lemma TopCategoryStatsHold(categories: seq<ProductCategory>, products: seq<Product>, views: seq<ProductView>)
    ensures TopCategoryStats(StatRows(RankCategories(categories, products, views), products), categories, products, views)
  {
    RankedStatRowsDescribe(categories, products, views);
    RankedStatRowsOutrank(categories, products, views);
  }

  lemma RankedStatRowsDescribe(categories: seq<ProductCategory>, products: seq<Product>, views: seq<ProductView>)
    ensures DescribedCategories(StatRows(RankCategories(categories, products, views), products), categories, products, views)
  {
    var top := RankCategories(categories, products, views);
    StatRowsShowRankedCategories(categories, products, views, top);
  }

  lemma RankedStatRowsOutrank(categories: seq<ProductCategory>, products: seq<Product>, views: seq<ProductView>)
    ensures OutrankTheRest(StatRows(RankCategories(categories, products, views), products), categories, products, views)
  {
    var top := RankCategories(categories, products, views);
    StatRowsKeepRanking(categories, products, views, top);
  }

  /** Each statistics row describes one ranked category, in ranking order. */
  lemma StatRowsShowRankedCategories(categories: seq<ProductCategory>, products: seq<Product>, views: seq<ProductView>,
                                     top: seq<Ranked<ProductCategory>>)
    requires forall x :: x in top ==> x.item in categories && x.views == CategoryViews(products, views, x.item.id)
    requires forall i, j :: 0 <= i < j < |top| ==> top[i].views >= top[j].views
    requires multiset(Items(top)) <= multiset(categories)
    requires |top| == if |categories| <= 5 then |categories| else 5
    ensures DescribedCategories(StatRows(top, products), categories, products, views)
  {
    assert forall i :: 0 <= i < |top| ==> top[i] in top;
    StatRowsCategories(top, products);
  }

  /** The five categories whose products have the most views, each with that number. */
  function RankCategories(categories: seq<ProductCategory>, products: seq<Product>, views: seq<ProductView>)
    : (top: seq<Ranked<ProductCategory>>)
    ensures |top| == if |categories| <= 5 then |categories| else 5
    ensures forall x :: x in top ==> x.item in categories && x.views == CategoryViews(products, views, x.item.id)
    ensures forall i, j :: 0 <= i < j < |top| ==> top[i].views >= top[j].views
    ensures multiset(Items(top)) <= multiset(categories)
    ensures forall c, i :: c in categories && c !in Items(top) && 0 <= i < |top| ==>
              top[i].views >= CategoryViews(products, views, c.id)
  {
    var count := (c: ProductCategory) => CategoryViews(products, views, c.id);
    assert forall c :: count(c) == CategoryViews(products, views, c.id);
    TopByViewsOutranksUnlisted(categories, count, 5);
    TopByViews(categories, count, 5)
  }

  /** The ranking of the categories carries over to their statistics rows. */
  lemma StatRowsKeepRanking(categories: seq<ProductCategory>, products: seq<Product>, views: seq<ProductView>,
                            top: seq<Ranked<ProductCategory>>)
    requires forall y, i :: y in categories && y !in Items(top) && 0 <= i < |top| ==>
               top[i].views >= CategoryViews(products, views, y.id)
    ensures var r := StatRows(top, products);
            forall c, i :: c in categories && c !in StatCategories(r) && 0 <= i < |r| ==>
              r[i].totalViews >= CategoryViews(products, views, c.id)
  {
    StatRowsCategories(top, products);
  }

  /** The statistics rows list the ranked categories, in order. */
  lemma StatRowsCategories(top: seq<Ranked<ProductCategory>>, products: seq<Product>)
    ensures StatCategories(StatRows(top, products)) == Items(top)
  {
    assert forall i :: 0 <= i < |top| ==> StatCategories(StatRows(top, products))[i] == Items(top)[i];
  }

  /** The top-n property in terms of the items listed: no unlisted item has more views than a listed one. */
  lemma TopByViewsOutranksUnlisted<T(!new)>(items: seq<T>, count: T -> nat, n: nat)
    ensures var r := TopByViews(items, count, n);
            forall y, i :: y in items && y !in Items(r) && 0 <= i < |r| ==> r[i].views >= count(y)
  {
  }

  /** The categories of statistics rows, in order. */
  function StatCategories(rows: seq<CategoryStat>): (r: seq<ProductCategory>)
    ensures |r| == |rows|
    ensures forall i :: 0 <= i < |r| ==> r[i] == rows[i].category
  {
    if rows == [] then [] else [rows[0].category] + StatCategories(rows[1..])
  }

  /** Each ranked category with its number of products. */
  function StatRows(top: seq<Ranked<ProductCategory>>, products: seq<Product>): (r: seq<CategoryStat>)
    ensures |r| == |top|
    ensures forall i :: 0 <= i < |r| ==>
              && r[i].category == top[i].item
              && r[i].productCount == ProductsIn(products, top[i].item.id)
              && r[i].totalViews == top[i].views
  {
    if top == [] then []
    else [CategoryStat(top[0].item, ProductsIn(products, top[0].item.id), top[0].views)] + StatRows(top[1..], products)
  }

  // ---------------------------------------------------------------------------
  // The dashboard

  /** The tables `get_analytics_data` reads. */
  datatype Database = Database(
    categories: seq<ProductCategory>,
    products: seq<Product>,
    posts: seq<BlogPost>,
    visits: seq<PageVisit>,
    productViews: seq<ProductView>,
    postViews: seq<BlogPostView>,
    contacts: seq<ContactSubmission>)

  datatype AnalyticsData = AnalyticsData(
    totalProducts: nat,
    totalCategories: nat,
    totalBlogPosts: nat,
    totalPageVisits: nat,
    recentVisits7Days: nat,
    recentVisits30Days: nat,
    popularProducts: seq<Ranked<Product>>,
    popularBlogPosts: seq<Ranked<BlogPost>>,
    recentContacts: nat,
    dailyVisits: seq<DailyCount>,
    categoryStats: seq<CategoryStat>)

  /**
   `get_analytics_data` on day `today`. Its category statistics carry the
   corrected product count of `CategoryStats`, not the joined count of
   `JoinedProductCount` that the query as written reports.
   */
  method GetAnalyticsData(db: Database, today: int) returns (d: AnalyticsData)
    ensures d.totalProducts == |db.products| && d.totalCategories == |db.categories|
    ensures d.totalBlogPosts == Count(db.posts, IsPublished)
    ensures d.totalPageVisits == |db.visits|
    ensures d.recentVisits7Days <= d.recentVisits30Days <= d.totalPageVisits
    ensures d.recentVisits7Days == RecentVisits(db.visits, today, 7)
    ensures d.recentVisits30Days == RecentVisits(db.visits, today, 30)
    ensures d.recentContacts == RecentContacts(db.contacts, today)
    ensures |d.dailyVisits| == 7
    ensures forall k :: 0 <= k < 7 ==> d.dailyVisits[k] == DailyCount(today - 6 + k, VisitsOn(db.visits, today - 6 + k))
    ensures SeriesTotal(d.dailyVisits) <= d.recentVisits7Days
    ensures |d.popularProducts| <= 5 && |d.popularBlogPosts| <= 5 && |d.categoryStats| <= 5
    ensures d.popularProducts == PopularProducts(db.products, db.productViews)
    ensures d.popularBlogPosts == PopularBlogPosts(db.posts, db.postViews)
    ensures d.categoryStats == CategoryStats(db.categories, db.products, db.productViews)
  {
    var series := DailyVisits(db.visits, today);
    DailySeriesWithinWeek(db.visits, today, series);
    RecentVisitsMonotone(db.visits, today, 7, 30);
    d := AnalyticsData(
      |db.products|,
      |db.categories|,
      Count(db.posts, IsPublished),
      |db.visits|,
      RecentVisits(db.visits, today, 7),
      RecentVisits(db.visits, today, 30),
      PopularProducts(db.products, db.productViews),
      PopularBlogPosts(db.posts, db.postViews),
      RecentContacts(db.contacts, today),
      series,
      CategoryStats(db.categories, db.products, db.productViews));
  }
}

=== FILE: models.dfy ===
/**
 This module models the records of app/models.py and the rules their `save`
 overrides and helper methods apply. Records are immutable values; a save
 returns the record (or, for price lists, the table) as it is written.
 */
module Models {
  import opened Wrappers
  import opened Text

  /** Django's `slugify`, left uninterpreted: the model takes it as a parameter. */
  type Slugify = string -> string

  datatype ProductCategory = ProductCategory(
    id: nat,
    name: string,
    description: string,
    slug: string,
    icon: Option<string>,
    seoMetaName: Option<string>,
    seoMetaDescription: Option<string>,
    seoMetaKeywords: Option<string>)

  /**
   An uploaded image, reduced to what the crop decides: its pixel size. The
   file name and the encoded bytes are not modelled; every save rewrites them.
   */
  datatype Image = Image(width: nat, height: nat)

  datatype Product = Product(
    id: nat,
    name: string,
    slug: string,
    description: string,
    content: string,
    category: nat,           // id of a ProductCategory
    image: Option<Image>,
    status: Option<nat>,     // id of a ProductStatus, null when unset
    createdAt: int)

  datatype BlogCategory = BlogCategory(id: nat, name: string, description: Option<string>, slug: string)

  /** The `status` choices of a blog post. */
  datatype PostStatus = Draft | Published | Archived

  /** A new post is a draft unless a status is chosen. */
  const DefaultStatus: PostStatus := Draft

  datatype BlogPost = BlogPost(
    id: nat,
    title: string,
    slug: string,
    excerpt: string,
    content: string,
    category: nat,           // id of a BlogCategory
    author: string,
    publishedDate: int,
    isFeatured: bool,
    status: PostStatus,
    tags: string,            // comma-separated
    metaDescription: string)

  datatype PriceList = PriceList(
    id: nat,
    title: string,
    version: string,
    description: string,
    isActive: bool,
    uploadDate: int,
    updatedDate: int)

  datatype AboutPage = AboutPage(
    seoMetaName: Option<string>,
    seoMetaDescription: Option<string>,
    seoMetaKeywords: Option<string>,  // comma-separated
    content1: string,
    content2: string)

  // ---------------------------------------------------------------------------
  // Slug auto-fill

  /** An empty slug is falsy, so it is replaced by the slug of the source text. */
  function FillSlug(slug: string, source: string, slugify: Slugify): string {
    if slug != "" then slug else slugify(source)
  }

  function SaveProductCategory(c: ProductCategory, slugify: Slugify): (r: ProductCategory)
    ensures c.slug != "" ==> r == c
    ensures c.slug == "" ==> r.slug == slugify(c.name)
    ensures r.(slug := c.slug) == c
  {
    c.(slug := FillSlug(c.slug, c.name, slugify))
  }

  function SaveBlogCategory(c: BlogCategory, slugify: Slugify): (r: BlogCategory)
    ensures c.slug != "" ==> r == c
    ensures c.slug == "" ==> r.slug == slugify(c.name)
    ensures r.(slug := c.slug) == c
  {
    c.(slug := FillSlug(c.slug, c.name, slugify))
  }

  /** A blog post's slug comes from its title, not a name. */
  function SaveBlogPost(p: BlogPost, slugify: Slugify): (r: BlogPost)
    ensures p.slug != "" ==> r == p
    ensures p.slug == "" ==> r.slug == slugify(p.title)
    ensures r.(slug := p.slug) == p
  {
    p.(slug := FillSlug(p.slug, p.title, slugify))
  }

  /** Saving twice writes what saving once wrote. */
  lemma SaveSlugIdempotent(c: ProductCategory, bc: BlogCategory, p: BlogPost, slugify: Slugify)
    ensures SaveProductCategory(SaveProductCategory(c, slugify), slugify) == SaveProductCategory(c, slugify)
    ensures SaveBlogCategory(SaveBlogCategory(bc, slugify), slugify) == SaveBlogCategory(bc, slugify)
    ensures SaveBlogPost(SaveBlogPost(p, slugify), slugify) == SaveBlogPost(p, slugify)
  {
  }

  // ---------------------------------------------------------------------------
  // Centre crop of product images

  function Min(a: nat, b: nat): nat {
    if a <= b then a else b
  }

  /** The `(left, top, right, bottom)` rectangle handed to `Image.crop`. */
  datatype Box = Box(left: nat, top: nat, right: nat, bottom: nat)

  /**
   The largest centred square inside a `width` by `height` image. The side is
   the smaller dimension, the box lies inside the image, one axis is not cut at
   all, and on the other the margins differ by at most one pixel, the extra
   pixel going to the right or bottom margin.
   */
  function CenterCropBox(width: nat, height: nat): (b: Box)
    ensures b.right - b.left == b.bottom - b.top == Min(width, height)
    ensures b.left <= b.right <= width && b.top <= b.bottom <= height
    ensures b.left == 0 || b.top == 0
    ensures b.left <= width - b.right <= b.left + 1
    ensures b.top <= height - b.bottom <= b.top + 1
  {
    var side := Min(width, height);
    var left := (width - side) / 2;
    var top := (height - side) / 2;
    Box(left, top, left + side, top + side)
  }

  /** The image `Image.crop(box)` produces: the box's size. */
  function Crop(img: Image, b: Box): Image
    requires b.left <= b.right <= img.width && b.top <= b.bottom <= img.height
  {
    Image(b.right - b.left, b.bottom - b.top)
  }

  /** The crop of a square image is the whole image. */
  lemma SquareCropIsWhole(side: nat)
    ensures CenterCropBox(side, side) == Box(0, 0, side, side)
  {
  }

  /**
   `Product.save`: fills the slug from the name and, when there is an image,
   replaces it by its centred square crop. Nothing else changes.
   */
  function SaveProduct(p: Product, slugify: Slugify): (r: Product)
    ensures p.slug != "" ==> r.slug == p.slug
    ensures p.slug == "" ==> r.slug == slugify(p.name)
    ensures r.image.None? <==> p.image.None?
    ensures p.image.Some? ==> r.image == Some(Image(Min(p.image.value.width, p.image.value.height),
                                                    Min(p.image.value.width, p.image.value.height)))
    ensures r.(slug := p.slug, image := p.image) == p
  {
    var withSlug := p.(slug := FillSlug(p.slug, p.name, slugify));
    match p.image
    case None => withSlug
    case Some(img) => withSlug.(image := Some(Crop(img, CenterCropBox(img.width, img.height))))
  }

  /**
   A square image is not cut, so saving a saved product again gives the same
   slug, the same fields and the same image size.
   */
  lemma SaveProductIdempotent(p: Product, slugify: Slugify)
    ensures SaveProduct(SaveProduct(p, slugify), slugify) == SaveProduct(p, slugify)
  {
  }

  // ---------------------------------------------------------------------------
  // Blog post status

  /** The value stored in the `status` column. */
  function StatusValue(s: PostStatus): string {
    match s
    case Draft => "draft"
    case Published => "published"
    case Archived => "archived"
  }

  /**
   Validates a status value against the field's `choices`, as form validation
   (`full_clean`) does; anything outside the choices is rejected there.
   */
  function ParseStatus(v: string): (r: Option<PostStatus>)
    ensures r.Some? ==> StatusValue(r.value) == v
    ensures r.None? ==> forall s :: StatusValue(s) != v
  {
    if v == "draft" then Some(Draft)
    else if v == "published" then Some(Published)
    else if v == "archived" then Some(Archived)
    else None
  }

  /** Every status survives being stored and read back. */
  lemma ParseStatusValue(s: PostStatus)
    ensures ParseStatus(StatusValue(s)) == Some(s)
  {
  }

  /**
   The status a post gets: a post built without one gets the model default
   `draft` (also the form's initial choice); a given value passes form
   validation exactly when it is one of the choices.
   */
  function ChosenStatus(submitted: Option<string>): (r: Option<PostStatus>)
    ensures submitted.None? ==> r == Some(Draft)
    ensures submitted.Some? ==> (r.Some? <==> submitted.value in {"draft", "published", "archived"})
    ensures submitted.Some? && r.Some? ==> StatusValue(r.value) == submitted.value
  {
    match submitted
    case None => Some(DefaultStatus)
    case Some(v) => ParseStatus(v)
  }

  // ---------------------------------------------------------------------------
  // Comma-separated fields

  /** `BlogPost.get_tags_list`. */
  function TagsList(p: BlogPost): (r: seq<string>)
    ensures forall t :: t in r ==> t != "" && IsStripped(t) && ',' !in t
    ensures |r| <= Occurrences(p.tags, ',') + 1
    ensures p.tags == "" ==> r == []
  {
    CommaList(p.tags)
  }

  /** `AboutPage.get_seo_keywords_list`: no keywords when the field is null or empty. */
  function SeoKeywordsList(a: AboutPage): (r: seq<string>)
    ensures a.seoMetaKeywords.None? ==> r == []
    ensures forall t :: t in r ==> t != "" && IsStripped(t) && ',' !in t
  {
    match a.seoMetaKeywords
    case None => []
    case Some(k) => if k == "" then [] else CommaList(k)
  }

  /**
   The null/empty guard of `get_seo_keywords_list` changes nothing beyond null:
   a present keyword string is parsed exactly like a tag string.
   */
  lemma SeoKeywordsAsTags(a: AboutPage, p: BlogPost)
    requires a.seoMetaKeywords == Some(p.tags)
    ensures SeoKeywordsList(a) == TagsList(p)
  {
  }

  // ---------------------------------------------------------------------------
  // Price lists: at most one active row

  predicate UniqueIds(t: seq<PriceList>) {
    forall i, j :: 0 <= i < |t| && 0 <= j < |t| && t[i].id == t[j].id ==> i == j
  }

  predicate AtMostOneActive(t: seq<PriceList>) {
    forall i, j :: 0 <= i < |t| && 0 <= j < |t| && t[i].isActive && t[j].isActive ==> i == j
  }

  /** `exclude(pk=id).update(is_active=False)`: every other row is demoted, nothing else is touched. */
  function DeactivateOthers(t: seq<PriceList>, id: nat): (r: seq<PriceList>)
    ensures |r| == |t|
    ensures forall i :: 0 <= i < |t| ==> r[i] == if t[i].id == id then t[i] else t[i].(isActive := false)
  {
    if t == [] then []
    else [if t[0].id == id then t[0] else t[0].(isActive := false)] + DeactivateOthers(t[1..], id)
  }

  /** The position of the row with this id, if there is one. */
  function IndexOf(t: seq<PriceList>, id: nat): (r: Option<nat>)
    ensures r.Some? ==> r.value < |t| && t[r.value].id == id
    ensures r.None? ==> forall i :: 0 <= i < |t| ==> t[i].id != id
  {
    if t == [] then None
    else if t[0].id == id then Some(0)
    else match IndexOf(t[1..], id)
      case None => None
      case Some(k) => Some(k + 1)
  }

  /**
   `PriceList.save` at time `now`: an active row first demotes every other row;
   then the row is written, in place when its id is already stored and
   appended (with its upload date set) when it is new.
   */
  function SavePriceList(t: seq<PriceList>, row: PriceList, now: int): (r: seq<PriceList>)
    requires UniqueIds(t)
    ensures UniqueIds(r)
    ensures |r| == |t| || |r| == |t| + 1
    ensures |r| == |t| <==> exists i :: 0 <= i < |t| && t[i].id == row.id
    ensures exists k :: 0 <= k < |r| && r[k].id == row.id
    ensures forall k :: 0 <= k < |r| && r[k].id == row.id ==>
              r[k] == row.(updatedDate := now, uploadDate := if |r| == |t| then row.uploadDate else now)
    ensures forall i :: 0 <= i < |t| && t[i].id != row.id ==>
              r[i] == if row.isActive then t[i].(isActive := false) else t[i]
    ensures row.isActive ==> forall k :: 0 <= k < |r| ==> (r[k].isActive <==> r[k].id == row.id)
  {
    var demoted := if row.isActive then DeactivateOthers(t, row.id) else t;
    match IndexOf(t, row.id)
    case Some(k) =>
      var r := demoted[k := row.(updatedDate := now)];
      assert r[k].id == row.id;
      r
    case None =>
      var r := demoted + [row.(uploadDate := now, updatedDate := now)];
      assert r[|t|].id == row.id;
      r
  }

  /** Whatever row is saved, "at most one active price list" still holds afterwards. */
  lemma SavePriceListKeepsOneActive(t: seq<PriceList>, row: PriceList, now: int)
    requires UniqueIds(t)
    requires AtMostOneActive(t)
    ensures AtMostOneActive(SavePriceList(t, row, now))
  {
    var r := SavePriceList(t, row, now);
    if !row.isActive {
      forall i, j | 0 <= i < |r| && 0 <= j < |r| && r[i].isActive && r[j].isActive
        ensures i == j
      {
        assert r[i].id != row.id && r[j].id != row.id;
        assert i < |t| && j < |t|;
        assert r[i] == t[i] && r[j] == t[j];
      }
    }
  }
}

=== FILE: ordering.dfy ===
/**
 This module models `order_by(...)`: a sort under a comparator that is a total
 preorder. Rows with equal keys may come out in any order, as in the database,
 so the contracts promise a sorted permutation and nothing about ties.
 */
module Ordering {
  import opened Query

  /** `le(a, b)` means "a may come before b"; every pair is comparable and the relation chains. */
  ghost predicate TotalPreorder<T(!new)>(le: (T, T) -> bool) {
    && (forall a, b :: le(a, b) || le(b, a))
    && (forall a, b, c :: le(a, b) && le(b, c) ==> le(a, c))
  }

  /** Every row may come before every later row. */
  predicate SortedBy<T>(s: seq<T>, le: (T, T) -> bool) {
    forall i, j :: 0 <= i < j < |s| ==> le(s[i], s[j])
  }

  /** Places `x` into the sorted `s` in front of the first row it may precede. */
  function Insert<T(!new)>(x: T, s: seq<T>, le: (T, T) -> bool): (r: seq<T>)
    requires TotalPreorder(le)
    requires SortedBy(s, le)
    ensures multiset(r) == multiset(s) + multiset{x}
    ensures SortedBy(r, le)
  {
    if s == [] then [x]
    else if le(x, s[0]) then
      PrependSorted(x, s, le);
      [x] + s
    else
      assert s == [s[0]] + s[1..];
      var t := Insert(x, s[1..], le);
      forall y | y in t
        ensures le(s[0], y)
      {
        assert y in multiset(t);
      }
      PrependSorted(s[0], t, le);
      [s[0]] + t
  }

  /** A row that may precede every row of a sorted sequence can be put in front of it. */
  lemma PrependSorted<T(!new)>(x: T, s: seq<T>, le: (T, T) -> bool)
    requires TotalPreorder(le)
    requires SortedBy(s, le)
    requires s == [] || le(x, s[0]) || forall y :: y in s ==> le(x, y)
    ensures SortedBy([x] + s, le)
  {
    forall j | 0 <= j < |s|
      ensures le(x, s[j])
    {
      if !(forall y :: y in s ==> le(x, y)) {
        assert le(s[0], s[j]) || j == 0;
      }
    }
  }

  /** A sorted permutation of `s`. */
  function Sort<T(!new)>(s: seq<T>, le: (T, T) -> bool): (r: seq<T>)
    requires TotalPreorder(le)
    ensures multiset(r) == multiset(s)
    ensures SortedBy(r, le)
  {
    if s == [] then []
    else
      assert s == [s[0]] + s[1..];
      Insert(s[0], Sort(s[1..], le), le)
  }

  /**
   The first `n` rows of a sorted sequence are its top `n`: every row left out
   may come after every row kept.
   */
  lemma {:induction false} PrefixIsTop<T>(t: seq<T>, n: nat, le: (T, T) -> bool)
    requires SortedBy(t, le)
    requires n <= |t|
    ensures forall x, i :: x in t && x !in t[..n] && 0 <= i < n ==> le(t[i], x)
  {
    forall x, i | x in t && x !in t[..n] && 0 <= i < n
      ensures le(t[i], x)
    {
      var j :| 0 <= j < |t| && t[j] == x;
      assert n <= j;
    }
  }

  /**
   `order_by(...)[:n]`: the first `n` rows of the sorted table. They come from
   the table, are sorted, and every row left out may come after each row kept.
   */
  function SortedTake<T(!new)>(s: seq<T>, le: (T, T) -> bool, n: nat): (r: seq<T>)
    requires TotalPreorder(le)
    ensures |r| == if |s| <= n then |s| else n
    ensures multiset(r) <= multiset(s)
    ensures SortedBy(r, le)
    ensures forall x, i :: x in s && x !in r && 0 <= i < |r| ==> le(r[i], x)
  {
    var t := Sort(s, le);
    assert |t| == |multiset(t)| == |s|;
    var k := if |t| <= n then |t| else n;
    PrefixIsTop(t, k, le);
    assert t == t[..k] + t[k..];
    assert forall x :: x in s ==> x in multiset(t);
    t[..k]
  }

  /**
   `.filter(p).order_by(...)`: exactly the rows satisfying `p`, each as often
   as in the table, sorted.
   */
  function SortedFilter<T(!new)>(s: seq<T>, p: T -> bool, le: (T, T) -> bool): (r: seq<T>)
    requires TotalPreorder(le)
    ensures forall x :: x in r <==> x in s && p(x)
    ensures forall x :: multiset(r)[x] == if p(x) then multiset(s)[x] else 0
    ensures SortedBy(r, le)
    ensures |r| == Count(s, p)
  {
    var f := Filter(s, p);
    CountIsFilterLength(s, p);
    var r := Sort(f, le);
    assert forall x :: x in r <==> x in multiset(f);
    assert |r| == |multiset(r)| == |f|;
    r
  }

  /**
   `.filter(p).order_by(...)[:n]`: at most `n` rows satisfying `p`, each kept
   at most as often as it is stored, sorted; no row satisfying `p` that is left
   out may come before a row kept.
   */
  function TopFiltered<T(!new)>(s: seq<T>, p: T -> bool, le: (T, T) -> bool, n: nat): (r: seq<T>)
    requires TotalPreorder(le)
    ensures |r| == if Count(s, p) <= n then Count(s, p) else n
    ensures forall x :: x in r ==> x in s && p(x)
    ensures multiset(r) <= multiset(s)
    ensures SortedBy(r, le)
    ensures forall x, i :: x in s && p(x) && x !in r && 0 <= i < |r| ==> le(r[i], x)
  {
    var f := Filter(s, p);
    CountIsFilterLength(s, p);
    var r := SortedTake(f, le, n);
    assert forall x :: x in r ==> x in multiset(f);
    FilterSubMultiset(s, p);
    r
  }

  /**
   Code-point lexicographic order on strings, the order a binary collation
   gives to `order_by('name')`.
   */
  predicate LexLe(a: string, b: string) {
    a == [] || (b != [] && (a[0] < b[0] || (a[0] == b[0] && LexLe(a[1..], b[1..]))))
  }

  lemma {:induction false} LexLeTotal(a: string, b: string)
    ensures LexLe(a, b) || LexLe(b, a)
  {
    if a != [] && b != [] && a[0] == b[0] {
      LexLeTotal(a[1..], b[1..]);
    }
  }

  lemma {:induction false} LexLeTransitive(a: string, b: string, c: string)
    requires LexLe(a, b) && LexLe(b, c)
    ensures LexLe(a, c)
  {
    if a != [] && b != [] && c != [] && a[0] == b[0] && b[0] == c[0] {
      LexLeTransitive(a[1..], b[1..], c[1..]);
    }
  }

  /** Lexicographic order is a total preorder, so it can drive `Sort`. */
  lemma LexLeIsTotalPreorder()
    ensures TotalPreorder(LexLe)
  {
    forall a, b ensures LexLe(a, b) || LexLe(b, a) {
      LexLeTotal(a, b);
    }
    forall a, b, c | LexLe(a, b) && LexLe(b, c) ensures LexLe(a, c) {
      LexLeTransitive(a, b, c);
    }
  }
}

=== FILE: query.dfy ===
/**
 This module models the few query-set operations the views rely on:
 filtering, counting, reversing and the single-row `get`.
 A table is a sequence of records; the database's row order is the sequence order.
 */
module Query {
  import opened Wrappers

  /** The rows of `s` that satisfy `p`, in their original order (`.filter(...)`). */
  function Filter<T(!new)>(s: seq<T>, p: T -> bool): (r: seq<T>)
    ensures |r| <= |s|
    ensures forall x :: x in r <==> x in s && p(x)
    ensures forall x :: multiset(r)[x] == if p(x) then multiset(s)[x] else 0
  {
    if s == [] then []
    else
      assert s == [s[0]] + s[1..];
      (if p(s[0]) then [s[0]] else []) + Filter(s[1..], p)
  }

  /** Filtering keeps each row at most as often as it is stored. */
  lemma FilterSubMultiset<T(!new)>(s: seq<T>, p: T -> bool)
    ensures multiset(Filter(s, p)) <= multiset(s)
  {
  }

  /** The number of rows of `s` that satisfy `p` (`.filter(...).count()`). */
  function Count<T(!new)>(s: seq<T>, p: T -> bool): (c: nat)
    ensures c <= |s|
  {
    if s == [] then 0
    else (if p(s[0]) then 1 else 0) + Count(s[1..], p)
  }

  /** Counting the rows agrees with the length of the filtered table. */
  lemma {:induction false} CountIsFilterLength<T(!new)>(s: seq<T>, p: T -> bool)
    ensures Count(s, p) == |Filter(s, p)|
  {
    if s != [] {
      CountIsFilterLength(s[1..], p);
    }
  }

  /** The concatenation of `f(x)` over the rows `x` of `s`, in order. */
  function FlatMap<T, U>(s: seq<T>, f: T -> seq<U>): seq<U> {
    if s == [] then [] else f(s[0]) + FlatMap(s[1..], f)
  }

  /** `FlatMap` works row by row, so it distributes over concatenation. */
  lemma {:induction false} FlatMapAppend<T, U>(a: seq<T>, b: seq<T>, f: T -> seq<U>)
    ensures FlatMap(a + b, f) == FlatMap(a, f) + FlatMap(b, f)
  {
    if a == [] {
      assert a + b == b;
    } else {
      FlatMapAppend(a[1..], b, f);
      assert (a + b)[0] == a[0];
      assert (a + b)[1..] == a[1..] + b;
    }
  }

  /** `s` read backwards (`list.reverse()`). */
  function Reverse<T>(s: seq<T>): (r: seq<T>)
    ensures |r| == |s|
    ensures forall k :: 0 <= k < |s| ==> r[k] == s[|s| - 1 - k]
  {
    if s == [] then [] else Reverse(s[1..]) + [s[0]]
  }

  /** Counting is monotone in the condition. */
  lemma {:induction false} CountMonotone<T(!new)>(s: seq<T>, p: T -> bool, q: T -> bool)
    requires forall x :: p(x) ==> q(x)
    ensures Count(s, p) <= Count(s, q)
  {
    if s != [] {
      CountMonotone(s[1..], p, q);
    }
  }

  /** A condition no row satisfies counts nothing. */
  lemma {:induction false} CountNone<T(!new)>(s: seq<T>, p: T -> bool)
    requires forall x :: !p(x)
    ensures Count(s, p) == 0
  {
    if s != [] {
      CountNone(s[1..], p);
    }
  }

  /** A condition that is the disjoint union of two others counts their sum. */
  lemma {:induction false} CountSplit<T(!new)>(s: seq<T>, p: T -> bool, q: T -> bool, r: T -> bool)
    requires forall x :: p(x) <==> q(x) || r(x)
    requires forall x :: !(q(x) && r(x))
    ensures Count(s, p) == Count(s, q) + Count(s, r)
  {
    if s != [] {
      CountSplit(s[1..], p, q, r);
    }
  }

  /** Why `.get(...)` raised instead of returning a row. */
  datatype GetError = DoesNotExist | MultipleObjectsReturned

  /**
   Django's `QuerySet.get`: the one row matching `p`; `DoesNotExist` when none
   matches and `MultipleObjectsReturned` when two or more do.
   */
  function Get<T>(s: seq<T>, p: T -> bool): (r: Result<T, GetError>)
    ensures r.Success? ==> r.value in s && p(r.value)
    ensures r == Failure(DoesNotExist) <==> forall i :: 0 <= i < |s| ==> !p(s[i])
    ensures r == Failure(MultipleObjectsReturned) <==>
              exists i, j :: 0 <= i < j < |s| && p(s[i]) && p(s[j])
  {
    if s == [] then Failure(DoesNotExist)
    else
      var rest := Get(s[1..], p);
      if !p(s[0]) then
        assert forall i, j :: 0 <= i < j < |s| && p(s[i]) && p(s[j]) ==>
          0 <= i - 1 < j - 1 < |s[1..]| && p(s[1..][i - 1]) && p(s[1..][j - 1]);
        rest
      else if rest == Failure(DoesNotExist) then
        Success(s[0])
      else
        assert exists j :: 0 <= j < |s[1..]| && p(s[1..][j]);
        var j :| 0 <= j < |s[1..]| && p(s[1..][j]);
        assert 0 < j + 1 < |s| && p(s[0]) && p(s[j + 1]);
        Failure(MultipleObjectsReturned)
  }

  /** When at most one row can match (a unique column), `get` never reports several. */
  lemma GetOnUniqueKey<T>(s: seq<T>, p: T -> bool)
    requires forall i, j :: 0 <= i < |s| && 0 <= j < |s| && p(s[i]) && p(s[j]) ==> i == j
    ensures Get(s, p) != Failure(MultipleObjectsReturned)
    ensures Get(s, p).Success? <==> exists i :: 0 <= i < |s| && p(s[i])
  {
  }
}

=== FILE: text.dfy ===
/**
 This module models the string handling behind the comma-separated fields:
 Python's `str.strip()`, `str.split(',')`, and the rule
 "strip every piece and drop the empty ones".
 */
module Text {
  import opened Query

  /** The code points Python's `str.isspace()` accepts, which are the ones `strip()` removes. */
  predicate IsSpace(c: char) {
    || ('\t' <= c <= '\r')
    || ('\U{1C}' <= c <= ' ')
    || c == '\U{85}' || c == '\U{A0}' || c == '\U{1680}'
    || ('\U{2000}' <= c <= '\U{200A}')
    || c == '\U{2028}' || c == '\U{2029}' || c == '\U{202F}' || c == '\U{205F}' || c == '\U{3000}'
  }

  /** Nothing but whitespace (the empty string included): Python treats its strip as false. */
  predicate IsBlank(s: string) {
    forall k :: 0 <= k < |s| ==> IsSpace(s[k])
  }

  /** Neither starts nor ends with whitespace. */
  predicate IsStripped(s: string) {
    s == [] || (!IsSpace(s[0]) && !IsSpace(s[|s| - 1]))
  }

  /** The length of the run of whitespace `s` starts with. */
  function LeadingSpaces(s: string): (n: nat)
    ensures n <= |s|
    ensures forall k :: 0 <= k < n ==> IsSpace(s[k])
    ensures n < |s| ==> !IsSpace(s[n])
  {
    if s == [] || !IsSpace(s[0]) then 0 else 1 + LeadingSpaces(s[1..])
  }

  /** The length of the run of whitespace `s` ends with. */
  function TrailingSpaces(s: string): (n: nat)
    ensures n <= |s|
    ensures forall k :: |s| - n <= k < |s| ==> IsSpace(s[k])
    ensures n < |s| ==> !IsSpace(s[|s| - n - 1])
  {
    if s == [] || !IsSpace(s[|s| - 1]) then 0 else 1 + TrailingSpaces(s[..|s| - 1])
  }

  /**
   `s.strip()`: `s` without its leading and trailing whitespace. The result
   is empty exactly when `s` is blank.
   */
  function Strip(s: string): (r: string)
    ensures IsStripped(r)
    ensures |r| <= |s|
    ensures r == [] <==> IsBlank(s)
  {
    var t := s[LeadingSpaces(s)..];
    t[..|t| - TrailingSpaces(t)]
  }

  /**
   What `strip` cuts off is whitespace and what it keeps is one slice of `s`,
   so it never introduces a character.
   */
  lemma StripIsSlice(s: string)
    ensures LeadingSpaces(s) + |Strip(s)| <= |s|
    ensures Strip(s) == s[LeadingSpaces(s)..LeadingSpaces(s) + |Strip(s)|]
    ensures forall k :: LeadingSpaces(s) + |Strip(s)| <= k < |s| ==> IsSpace(s[k])
    ensures forall c :: c in Strip(s) ==> c in s
  {
  }

  /** Stripping a string that is already stripped changes nothing; hence strip is idempotent. */
  lemma StripStripped(s: string)
    requires IsStripped(s)
    ensures Strip(s) == s
  {
  }

  /**
   `s.split(sep)`: the pieces between separators, always one more piece than
   there are separators, none containing the separator; the first piece is
   the text before the first separator.
   */
  function Split(s: string, sep: char): (parts: seq<string>)
    ensures |parts| >= 1
    ensures parts[0] <= s
    ensures |parts[0]| == |s| || s[|parts[0]|] == sep
    ensures sep !in parts[0]
  {
    if s == [] then [""]
    else
      assert s == [s[0]] + s[1..];
      var rest := Split(s[1..], sep);
      if s[0] == sep then [""] + rest
      else [[s[0]] + rest[0]] + rest[1..]
  }

  /** The number of times `c` occurs in `s`. */
  function Occurrences(s: string, c: char): nat {
    if s == [] then 0 else (if s[0] == c then 1 else 0) + Occurrences(s[1..], c)
  }

  /** No piece contains the separator. */
  lemma {:induction false} SplitPiecesSeparatorFree(s: string, sep: char)
    ensures forall p :: p in Split(s, sep) ==> sep !in p
  {
    if s != [] {
      SplitPiecesSeparatorFree(s[1..], sep);
      assert s == [s[0]] + s[1..];
    }
  }

  /** There is one more piece than there are separators. */
  lemma {:induction false} SplitCount(s: string, sep: char)
    ensures |Split(s, sep)| == Occurrences(s, sep) + 1
  {
    if s != [] {
      SplitCount(s[1..], sep);
    }
  }

  /** `sep.join(parts)`. */
  function Join(parts: seq<string>, sep: char): string {
    if parts == [] then ""
    else if |parts| == 1 then parts[0]
    else parts[0] + [sep] + Join(parts[1..], sep)
  }

  /** Joining the pieces back with the separator gives the original string. */
  lemma {:induction false} JoinSplit(s: string, sep: char)
    ensures Join(Split(s, sep), sep) == s
  {
    if s != [] {
      JoinSplit(s[1..], sep);
      assert s == [s[0]] + s[1..];
    }
  }

  /** A string without the separator is a single piece. */
  lemma {:induction false} SplitNoSeparator(s: string, sep: char)
    requires sep !in s
    ensures Split(s, sep) == [s]
  {
    if s != [] {
      assert s[0] in s && s == [s[0]] + s[1..];
      SplitNoSeparator(s[1..], sep);
    }
  }

  /** A separator-free prefix glues onto the first piece of what follows it. */
  lemma {:induction false} SplitPrefix(a: string, b: string, sep: char)
    requires sep !in a
    ensures Split(a + b, sep) == [a + Split(b, sep)[0]] + Split(b, sep)[1..]
  {
    var parts := Split(b, sep);
    if a == [] {
      assert a + b == b && a + parts[0] == parts[0];
      assert parts == [parts[0]] + parts[1..];
    } else {
      var ab := a + b;
      assert a[0] in a;
      assert ab[0] == a[0] && ab[0] != sep;
      assert ab[1..] == a[1..] + b;
      SplitPrefix(a[1..], b, sep);
      var rest := Split(ab[1..], sep);
      assert rest == [a[1..] + parts[0]] + parts[1..];
      assert Split(ab, sep) == [[a[0]] + rest[0]] + rest[1..];
      assert [a[0]] + (a[1..] + parts[0]) == a + parts[0];
    }
  }

  /** A leading separator closes an empty first piece. */
  lemma SplitAfterSeparator(t: string, sep: char)
    ensures Split([sep] + t, sep) == [""] + Split(t, sep)
  {
    assert ([sep] + t)[1..] == t;
  }

  /** Splitting separator-free pieces joined by the separator recovers the pieces. */
  lemma {:induction false} SplitJoin(parts: seq<string>, sep: char)
    requires parts != []
    requires forall i :: 0 <= i < |parts| ==> sep !in parts[i]
    ensures Split(Join(parts, sep), sep) == parts
  {
    if |parts| == 1 {
      SplitNoSeparator(parts[0], sep);
    } else {
      var tail := Join(parts[1..], sep);
      SplitJoin(parts[1..], sep);
      var sepTail := [sep] + tail;
      SplitAfterSeparator(tail, sep);
      assert Join(parts, sep) == parts[0] + sepTail;
      SplitPrefix(parts[0], sepTail, sep);
      assert parts[0] + "" == parts[0];
    }
  }

  /** Strips every piece and keeps the non-empty results, in order. */
  function CleanPieces(pieces: seq<string>): (r: seq<string>)
    ensures |r| <= |pieces|
  {
    if pieces == [] then [] else Item(pieces[0]) + CleanPieces(pieces[1..])
  }

  /** What one piece contributes: its stripped form, unless that is empty. */
  function Item(piece: string): (r: seq<string>)
    ensures |r| <= 1
  {
    var t := Strip(piece);
    if t == [] then [] else [t]
  }

  /** Every item is non-empty and stripped. */
  lemma {:induction false} CleanPiecesItems(pieces: seq<string>)
    ensures forall t :: t in CleanPieces(pieces) ==> t != [] && IsStripped(t)
  {
    if pieces != [] {
      CleanPiecesItems(pieces[1..]);
    }
  }

  /** Every piece that is not blank contributes its stripped form. */
  lemma {:induction false} CleanPiecesComplete(pieces: seq<string>)
    ensures forall p :: p in pieces && !IsBlank(p) ==> Strip(p) in CleanPieces(pieces)
  {
    if pieces != [] {
      CleanPiecesComplete(pieces[1..]);
    }
  }

  /** Every item is the stripped form of some piece. */
  lemma {:induction false} CleanPiecesSound(pieces: seq<string>)
    ensures forall t :: t in CleanPieces(pieces) ==> exists p :: p in pieces && Strip(p) == t
  {
    if pieces != [] {
      CleanPiecesSound(pieces[1..]);
    }
  }

  /** Cleaning works piece by piece, so it keeps the left-to-right order. */
  lemma CleanPiecesAppend(a: seq<string>, b: seq<string>)
    ensures CleanPieces(a + b) == CleanPieces(a) + CleanPieces(b)
  {
    CleanPiecesIsFlatMap(a + b);
    CleanPiecesIsFlatMap(a);
    CleanPiecesIsFlatMap(b);
    FlatMapAppend(a, b, Item);
  }

  lemma {:induction false} CleanPiecesIsFlatMap(pieces: seq<string>)
    ensures CleanPieces(pieces) == FlatMap(pieces, Item)
  {
    if pieces != [] {
      CleanPiecesIsFlatMap(pieces[1..]);
    }
  }

  /**
   `[x.strip() for x in s.split(',') if x.strip()]`: the non-empty stripped
   items of a comma-separated string, in order.
   */
  function CommaList(s: string): (r: seq<string>)
    ensures |r| <= Occurrences(s, ',') + 1
    ensures forall t :: t in r ==> t != [] && IsStripped(t) && ',' !in t
    ensures s == [] ==> r == []
  {
    SplitCount(s, ',');
    SplitPiecesSeparatorFree(s, ',');
    CleanPiecesSound(Split(s, ','));
    CleanPiecesItems(Split(s, ','));
    forall p | p in Split(s, ',')
      ensures ',' !in Strip(p)
    {
      StripIsSlice(p);
    }
    CleanPieces(Split(s, ','))
  }

  /** An item that is non-empty, stripped and comma-free survives cleaning as itself. */
  lemma {:induction false} CleanPiecesOfItems(items: seq<string>)
    requires forall t :: t in items ==> t != [] && IsStripped(t)
    ensures CleanPieces(items) == items
  {
    if items != [] {
      assert items[0] in items;
      assert forall t :: t in items[1..] ==> t in items;
      StripStripped(items[0]);
      CleanPiecesOfItems(items[1..]);
    }
  }

  /** Joining items with commas and parsing the result gives the items back. */
  lemma CommaListJoin(items: seq<string>)
    requires forall t :: t in items ==> t != [] && IsStripped(t) && ',' !in t
    ensures CommaList(Join(items, ',')) == items
  {
    if items != [] {
      SplitJoin(items, ',');
      CleanPiecesOfItems(items);
    }
  }
}

=== FILE: views.dfy ===
/**
 This module models the selection logic of the page and JSON views in
 app/views.py: which rows each view hands to its template, in which order,
 and when it fails instead. Rendering is not modelled.
 */
module Views {
  import opened Wrappers
  import opened Query
  import opened Ordering
  import opened Models

  /**
   How a view fails. `get_object_or_404` turns a missing row into a 404
   (`NotFound`); any other lookup error, and every error of a plain `.get`,
   propagates out of the view (`Raised`).
   */
  datatype ViewError = NotFound | Raised(error: GetError)

  /** `get_object_or_404(...)`. */
  function GetOr404<T>(s: seq<T>, p: T -> bool): (r: Result<T, ViewError>)
    ensures r.Success? ==> r.value in s && p(r.value)
    ensures r == Failure(NotFound) <==> forall i :: 0 <= i < |s| ==> !p(s[i])
    ensures r == Failure(Raised(MultipleObjectsReturned)) <==>
              exists i, j :: 0 <= i < j < |s| && p(s[i]) && p(s[j])
    ensures r != Failure(Raised(DoesNotExist))
  {
    match Get(s, p)
    case Success(x) => Success(x)
    case Failure(DoesNotExist) => Failure(NotFound)
    case Failure(e) => Failure(Raised(e))
  }

  /** A plain `.get(...)` inside a view: every lookup error propagates. */
  function GetOrRaise<T>(s: seq<T>, p: T -> bool): (r: Result<T, ViewError>)
    ensures r.Success? ==> r.value in s && p(r.value)
    ensures r == Failure(Raised(DoesNotExist)) <==> forall i :: 0 <= i < |s| ==> !p(s[i])
    ensures r == Failure(Raised(MultipleObjectsReturned)) <==>
              exists i, j :: 0 <= i < j < |s| && p(s[i]) && p(s[j])
    ensures r != Failure(NotFound)
  {
    match Get(s, p)
    case Success(x) => Success(x)
    case Failure(e) => Failure(Raised(e))
  }

  // ---------------------------------------------------------------------------
  // Orderings

  /** `order_by('-published_date')`. */
  predicate NewerPostFirst(a: BlogPost, b: BlogPost) {
    a.publishedDate >= b.publishedDate
  }

  /** `order_by('-created_at')`. */
  predicate NewerProductFirst(a: Product, b: Product) {
    a.createdAt >= b.createdAt
  }

  /** `Product.Meta.ordering = ['name']`. */
  predicate ProductNameOrder(a: Product, b: Product) {
    LexLe(a.name, b.name)
  }

  /** `PriceList.Meta.ordering = ['-upload_date']`. */
  predicate NewerUploadFirst(a: PriceList, b: PriceList) {
    a.uploadDate >= b.uploadDate
  }

  lemma NewerPostFirstIsTotal()
    ensures TotalPreorder(NewerPostFirst)
  {
  }

  lemma NewerProductFirstIsTotal()
    ensures TotalPreorder(NewerProductFirst)
  {
  }

  lemma ProductNameOrderIsTotal()
    ensures TotalPreorder(ProductNameOrder)
  {
    LexLeIsTotalPreorder();
  }

  lemma NewerUploadFirstIsTotal()
    ensures TotalPreorder(NewerUploadFirst)
  {
  }

  // ---------------------------------------------------------------------------
  // Products

  /** `home`: the twelve newest products, newest first. */
  function NewProducts(products: seq<Product>): (r: seq<Product>)
    ensures |r| == if |products| <= 12 then |products| else 12
    ensures forall p :: p in r ==> p in products
    ensures multiset(r) <= multiset(products)
    ensures forall i, j :: 0 <= i < j < |r| ==> r[i].createdAt >= r[j].createdAt
    ensures forall p, i :: p in products && p !in r && 0 <= i < |r| ==> r[i].createdAt >= p.createdAt
  {
    NewerProductFirstIsTotal();
    var r := SortedTake(products, NewerProductFirst, 12);
    assert forall p :: p in r ==> p in multiset(products);
    r
  }

  datatype CategoryProductsPage = CategoryProductsPage(category: ProductCategory, products: seq<Product>)

  /**
   `category_products`: the category with the slug (a plain `.get`, so an
   unknown slug raises) and exactly its products, ordered by name.
   */
  function CategoryProducts(categories: seq<ProductCategory>, products: seq<Product>, slug: string)
    : (r: Result<CategoryProductsPage, ViewError>)
    ensures r.Success? ==> r.value.category in categories && r.value.category.slug == slug
    ensures r.Success? ==> forall p :: p in r.value.products <==> p in products && p.category == r.value.category.id
    ensures r.Success? ==> forall p: Product :: p.category == r.value.category.id ==> multiset(r.value.products)[p] == multiset(products)[p]
    ensures r.Success? ==> SortedBy(r.value.products, ProductNameOrder)
    ensures r == Failure(Raised(DoesNotExist)) <==> forall i :: 0 <= i < |categories| ==> categories[i].slug != slug
    ensures r == Failure(Raised(MultipleObjectsReturned)) <==>
              exists i, j :: 0 <= i < j < |categories| && categories[i].slug == slug && categories[j].slug == slug
    ensures r.Failure? ==> r.error.Raised?
  {
    match GetOrRaise(categories, (c: ProductCategory) => c.slug == slug)
    case Failure(e) => Failure(e)
    case Success(c) =>
      ProductNameOrderIsTotal();
      Success(CategoryProductsPage(c, SortedFilter(products, (p: Product) => p.category == c.id, ProductNameOrder)))
  }

  /** Some category with this id carries this slug (the `category__slug` join). */
  predicate CategoryHasSlug(categories: seq<ProductCategory>, id: nat, slug: string) {
    exists c :: c in categories && c.id == id && c.slug == slug
  }

  /**
   `product_in_category`: the product with the slug whose category has the
   category slug; a plain `.get`, so no match or several matches raise.
   */
  function ProductInCategory(categories: seq<ProductCategory>, products: seq<Product>,
                             categorySlug: string, productSlug: string): (r: Result<Product, ViewError>)
    ensures r.Success? ==> r.value in products && r.value.slug == productSlug
    ensures r.Success? ==> exists c :: c in categories && c.id == r.value.category && c.slug == categorySlug
    ensures r == Failure(Raised(DoesNotExist)) <==>
              forall i :: 0 <= i < |products| ==>
                !(products[i].slug == productSlug && CategoryHasSlug(categories, products[i].category, categorySlug))
    ensures r == Failure(Raised(MultipleObjectsReturned)) <==>
              exists i, j :: 0 <= i < j < |products| &&
                products[i].slug == productSlug && CategoryHasSlug(categories, products[i].category, categorySlug) &&
                products[j].slug == productSlug && CategoryHasSlug(categories, products[j].category, categorySlug)
    ensures r.Failure? ==> r.error.Raised?
  {
    GetOrRaise(products, (p: Product) => p.slug == productSlug && CategoryHasSlug(categories, p.category, categorySlug))
  }

  // ---------------------------------------------------------------------------
  // Blog

  predicate IsPublished(p: BlogPost) {
    p.status == Published
  }

  /**
   `blog` and `api_blog_posts`: exactly the published posts, each as often as
   it is stored, newest first.
   */
  function PublishedPosts(posts: seq<BlogPost>): (r: seq<BlogPost>)
    ensures forall p :: p in r <==> p in posts && p.status == Published
    ensures forall p :: multiset(r)[p] == if p.status == Published then multiset(posts)[p] else 0
    ensures SortedBy(r, NewerPostFirst)
    ensures |r| == Count(posts, IsPublished)
  {
    NewerPostFirstIsTotal();
    SortedFilter(posts, IsPublished, NewerPostFirst)
  }

  /** A post that may be shown next to `post`: same category, published, not `post` itself. */
  predicate IsRelated(post: BlogPost, q: BlogPost) {
    q.category == post.category && q.status == Published && q.id != post.id
  }

  /** `IsRelated` to `post`, as a filter condition. */
  function RelatedTo(post: BlogPost): BlogPost -> bool {
    q => IsRelated(post, q)
  }

  /**
   The related posts of `individual_blog`: at most three related posts, none
   shown more often than it is stored, newest first, and no related post left
   out is newer than one shown.
   */
  function RelatedPosts(posts: seq<BlogPost>, post: BlogPost): (r: seq<BlogPost>)
    ensures |r| <= 3
    ensures |r| == if Count(posts, RelatedTo(post)) <= 3 then Count(posts, RelatedTo(post)) else 3
    ensures forall q :: q in r ==> q in posts && IsRelated(post, q)
    ensures multiset(r) <= multiset(posts)
    ensures SortedBy(r, NewerPostFirst)
    ensures forall q, i :: q in posts && IsRelated(post, q) && q !in r && 0 <= i < |r| ==> NewerPostFirst(r[i], q)
  {
    NewerPostFirstIsTotal();
    var related := RelatedTo(post);
    assert forall q :: related(q) == IsRelated(post, q);
    TopFiltered(posts, related, NewerPostFirst, 3)
  }

  datatype PostPage = PostPage(post: BlogPost, related: seq<BlogPost>)

  /**
   `individual_blog`: the published post with the slug and its related posts;
   404 unless such a post exists.
   */
  function IndividualBlog(posts: seq<BlogPost>, slug: string): (r: Result<PostPage, ViewError>)
    ensures r.Success? ==> r.value.post in posts && r.value.post.slug == slug && r.value.post.status == Published
    ensures r.Success? ==> r.value.related == RelatedPosts(posts, r.value.post)
    ensures r == Failure(NotFound) <==>
              forall i :: 0 <= i < |posts| ==> !(posts[i].slug == slug && posts[i].status == Published)
    ensures r == Failure(Raised(MultipleObjectsReturned)) <==>
              exists i, j :: 0 <= i < j < |posts| &&
                posts[i].slug == slug && posts[i].status == Published &&
                posts[j].slug == slug && posts[j].status == Published
    ensures r != Failure(Raised(DoesNotExist))
  {
    var found := PublishedPostWithSlug(posts, slug);
    if found.Failure? then Failure(found.error)
    else Success(PostPage(found.value, RelatedPosts(posts, found.value)))
  }

  /** `get_object_or_404(BlogPost, slug=slug, status='published')`. */
  function PublishedPostWithSlug(posts: seq<BlogPost>, slug: string): (r: Result<BlogPost, ViewError>)
    ensures r.Success? ==> r.value in posts && r.value.slug == slug && r.value.status == Published
    ensures r == Failure(NotFound) <==>
              forall i :: 0 <= i < |posts| ==> !(posts[i].slug == slug && posts[i].status == Published)
    ensures r == Failure(Raised(MultipleObjectsReturned)) <==>
              exists i, j :: 0 <= i < j < |posts| &&
                posts[i].slug == slug && posts[i].status == Published &&
                posts[j].slug == slug && posts[j].status == Published
    ensures r != Failure(Raised(DoesNotExist))
  {
    GetOr404(posts, (p: BlogPost) => p.slug == slug && p.status == Published)
  }

  /** With unique slugs, a post page is shown exactly when a published post has the slug. */
  lemma IndividualBlogUniqueSlugs(posts: seq<BlogPost>, slug: string)
    requires forall i, j :: 0 <= i < |posts| && 0 <= j < |posts| && posts[i].slug == posts[j].slug ==> i == j
    ensures IndividualBlog(posts, slug).Success? <==>
              exists i :: 0 <= i < |posts| && posts[i].slug == slug && posts[i].status == Published
    ensures IndividualBlog(posts, slug).Failure? ==> IndividualBlog(posts, slug).error == NotFound
  {
  }

  datatype BlogCategoryPage = BlogCategoryPage(category: BlogCategory, posts: seq<BlogPost>)

  /**
   `blog_category`: 404 for an unknown category slug; otherwise exactly the
   published posts of that category, each as often as it is stored, newest first.
   */
  function BlogCategoryListing(categories: seq<BlogCategory>, posts: seq<BlogPost>, slug: string)
    : (r: Result<BlogCategoryPage, ViewError>)
    ensures r.Success? ==> r.value.category in categories && r.value.category.slug == slug
    ensures r.Success? ==> forall p :: p in r.value.posts <==>
              p in posts && p.category == r.value.category.id && p.status == Published
    ensures r.Success? ==>
              (forall p :: multiset(r.value.posts)[p] ==
                 if p.category == r.value.category.id && p.status == Published then multiset(posts)[p] else 0)
    ensures r.Success? ==> SortedBy(r.value.posts, NewerPostFirst)
    ensures r == Failure(NotFound) <==> forall i :: 0 <= i < |categories| ==> categories[i].slug != slug
    ensures r == Failure(Raised(MultipleObjectsReturned)) <==>
              exists i, j :: 0 <= i < j < |categories| && categories[i].slug == slug && categories[j].slug == slug
    ensures r != Failure(Raised(DoesNotExist))
  {
    match GetOr404(categories, (c: BlogCategory) => c.slug == slug)
    case Failure(e) => Failure(e)
    case Success(c) =>
      NewerPostFirstIsTotal();
      var inCategory := (p: BlogPost) => p.category == c.id && p.status == Published;
      Success(BlogCategoryPage(c, SortedFilter(posts, inCategory, NewerPostFirst)))
  }

  /** One entry of the `api_blog_posts` JSON array. */
  datatype ApiBlogPost = ApiBlogPost(
    id: nat, title: string, slug: string, excerpt: string, author: string,
    publishedDate: int, isFeatured: bool, category: nat, tags: seq<string>)

  function ApiEntry(p: BlogPost): ApiBlogPost {
    ApiBlogPost(p.id, p.title, p.slug, p.excerpt, p.author, p.publishedDate, p.isFeatured, p.category, TagsList(p))
  }

  /** `e` is the entry of some published post. */
  predicate IsEntryOfPublished(posts: seq<BlogPost>, e: ApiBlogPost) {
    exists p :: p in posts && p.status == Published && e == ApiEntry(p)
  }

  /** `api_blog_posts`: one entry per published post, newest first, tags parsed. */
  function ApiBlogPosts(posts: seq<BlogPost>): (r: seq<ApiBlogPost>)
    ensures |r| == Count(posts, IsPublished)
    ensures forall i :: 0 <= i < |r| ==> IsEntryOfPublished(posts, r[i])
    ensures forall p :: p in posts && p.status == Published ==> ApiEntry(p) in r
    ensures forall i, j :: 0 <= i < j < |r| ==> r[i].publishedDate >= r[j].publishedDate
  {
    var listed := PublishedPosts(posts);
    var r := ApiEntries(listed);
    ApiEntriesOfListing(posts, listed, r);
    r
  }

  /** The JSON entries of `listed`, position by position. */
  function ApiEntries(listed: seq<BlogPost>): (r: seq<ApiBlogPost>)
    ensures |r| == |listed|
    ensures forall i :: 0 <= i < |r| ==> r[i] == ApiEntry(listed[i])
  {
    if listed == [] then [] else [ApiEntry(listed[0])] + ApiEntries(listed[1..])
  }

  lemma ApiEntriesOfListing(posts: seq<BlogPost>, listed: seq<BlogPost>, r: seq<ApiBlogPost>)
    requires forall p :: p in listed <==> p in posts && p.status == Published
    requires SortedBy(listed, NewerPostFirst)
    requires |r| == |listed|
    requires forall i :: 0 <= i < |r| ==> r[i] == ApiEntry(listed[i])
    ensures forall i :: 0 <= i < |r| ==> IsEntryOfPublished(posts, r[i])
    ensures forall p :: p in posts && p.status == Published ==> ApiEntry(p) in r
    ensures forall i, j :: 0 <= i < j < |r| ==> r[i].publishedDate >= r[j].publishedDate
  {
    forall i | 0 <= i < |r|
      ensures IsEntryOfPublished(posts, r[i])
    {
      assert listed[i] in listed;
    }
    forall p | p in posts && p.status == Published
      ensures ApiEntry(p) in r
    {
      var i :| 0 <= i < |listed| && listed[i] == p;
      assert r[i] == ApiEntry(p);
    }
    forall i, j | 0 <= i < j < |r|
      ensures r[i].publishedDate >= r[j].publishedDate
    {
      assert NewerPostFirst(listed[i], listed[j]);
    }
  }

  // ---------------------------------------------------------------------------
  // Price list

  predicate IsActive(p: PriceList) {
    p.isActive
  }

  /**
   `price_list`: the first active price list in newest-upload order, if any
   price list is active.
   */
  function ActivePriceList(lists: seq<PriceList>): (r: Option<PriceList>)
    ensures r.Some? <==> exists i :: 0 <= i < |lists| && lists[i].isActive
    ensures r.Some? ==> r.value in lists && r.value.isActive
    ensures r.Some? ==> forall x :: x in lists && x.isActive ==> NewerUploadFirst(r.value, x)
  {
    NewerUploadFirstIsTotal();
    var sorted := SortedFilter(lists, IsActive, NewerUploadFirst);
    assert forall i :: 0 <= i < |lists| && lists[i].isActive ==> lists[i] in sorted;
    if sorted == [] then
      None
    else
      assert sorted[0] in sorted;
      assert forall x :: x in sorted ==> NewerUploadFirst(sorted[0], x);
      Some(sorted[0])
  }

  /** Under the one-active-row invariant the view shows that row. */
  lemma ActivePriceListIsTheActiveRow(lists: seq<PriceList>, i: nat)
    requires AtMostOneActive(lists)
    requires i < |lists| && lists[i].isActive
    ensures ActivePriceList(lists) == Some(lists[i])
  {
  }
}

=== FILE: wrappers.dfy ===
/** Optional values and fallible results shared by the whole model. */
module Wrappers {

  /** A value that may be absent: a nullable column or a missing header. */
  datatype Option<+T> = None | Some(value: T)

  /** The outcome of a lookup or a request handler: a value, or the error raised. */
  datatype Result<+T, +E> = Success(value: T) | Failure(error: E)
}
